=== FILE: README.md ===
# Video file browser: scan, rename, exclude and batched reveal

A Dafny model of the core of a browser application that lets a user pick a
folder on disk and browse the video files inside it. The model covers three
pieces of sequential logic and proves properties of each:

- **The scan** (`handleScan` in `src/app/page.tsx`). This is the depth-first
  `processDirectory` walk over the picked folder. It builds each child's path
  as `path + "/" + name` and skips any child whose path starts with an
  excluded folder string. It reports every file whose lower-cased name ends
  in `.mp4`, `.mov`, `.mkv`, `.avi` or `.webm`. It enters subdirectories only
  in recursive mode, and it checks the stop button's abort flag on entering
  each directory and before each child. Module `DirectoryWalk` models the
  folder as an `Entry` tree and the stop button as an `Abort` schedule, which
  says at which abort-flag check the flag is first seen set. The walk
  `ProcessDirectory` is related to `Scan`, the same walk without a stop
  button.
- **Rename and exclude**, in the two places the code has them:
  - The page's own handlers (`handleRename` and `handleExclude` in
    `src/app/page.tsx`) are modelled in module `PageActions`.
  - The in-memory store of `src/lib/video-manager.ts` (`getFolderPath`,
    `mockScanVideos`, `mockRenameVideo`, `mockExcludeFolder`) is modelled in
    module `VideoStore`.
  - The two versions differ, and the model keeps them apart. The page has
    no collision handling on rename and hides by raw prefix. The store
    renames clashing names to `_1`, `_2`, … and hides by exact folder
    equality.
- **The batched reveal** of the grid (`src/components/video/video-grid.tsx`)
  is modelled in module `VideoGrid`. It is a two-field state, the visible
  prefix plus a `loadMore` flag. The state resets to the first 24 videos
  whenever the list changes and grows by up to 24 each time the last card
  scrolls into view.

Shared pieces:

- `JsString` models the JavaScript string operations the code relies on:
  - `lastIndexOf` answers -1 when the character is absent;
  - `substring` clamps negative indices, so a name without a dot has the
    whole name as its "extension" and a path without a slash has folder `""`;
  - `startsWith` and `endsWith`;
  - the grid's array `slice` (not a string operation), which clamps its bounds
    to the array's length;
  - ASCII `toLowerCase`;
  - decimal rendering of a non-negative integer.
- `Lists` holds an order-preserving filter and the subsequence relation.
- `Videos` holds the video record and the path and name derivations both
  halves of the program use.

The host's file-system calls are not modelled. The directory handles become
the `Entry` tree with each file's `lastModified` as a natural number. The
outcome of a page rename's host calls becomes the two booleans of
`PageActions.Host`.

The model follows the code: the page's exclusion test is a raw `startsWith` on the path string, so
excluding `/a/b` also hides `/a/bb` (`PageActions.ExcludeHidesPrefixSibling`);
it does not respect path segments. The store's scan compares the folder for
equality, so subfolders of an excluded folder stay visible
(`VideoStore.ScanKeepsSubfolderVideos`).

## Model

| member | source | states |
|---|---|---|
| JsString.LastIndexOf | src/lib/video-manager.ts:24 | `lastIndexOf` answers -1 exactly when the character is absent; otherwise it answers an index holding the character with no occurrence after it |
| JsString.NatToString | src/app/page.tsx:61 | the decimal text of a modification time is non-empty, all digits, and one character long exactly for values below 10 |
| JsString.NatToStringInjective | src/lib/video-manager.ts:58 | different counters give different decimal texts, so the `_k` suffixes of the rename loop are all distinct |
| JsString.LastIndexOfAppend | src/lib/video-manager.ts:24 | the last occurrence in `a + b` of a character that occurs in `b` lies in `b`, shifted by the length of `a` |
| JsString.Clamp | src/lib/video-manager.ts:24 | each `substring` index is clamped into [0, length]; an index already in range is kept |
| JsString.Substring | src/lib/video-manager.ts:24 | `substring(start, end)` is the slice between the indices when they are in range and ordered, the slice between them swapped when reversed, and `""` when both are 0 or below, so `substring(0, -1)` is empty; it is never longer than the string |
| JsString.SubstringFrom | src/lib/video-manager.ts:49 | `substring(start)` is the whole string for a start of 0 or below (so `substring(-1)` of a dot-free name is the name) and the suffix from an in-range start |
| JsString.StartsWith | src/app/page.tsx:54 | `startsWith`: the string's first characters are the prefix |
| JsString.EndsWith | src/app/page.tsx:58 | `endsWith`: the string's last characters are the suffix |
| JsString.ToLower | src/app/page.tsx:58 | `toLowerCase` keeps the length and lower-cases each ASCII letter in place, leaving every other character alone |
| JsString.Slice | src/components/video/video-grid.tsx:22-34 | the array `slice` never yields more than the array; with an in-range start it is the elements from the start up to the end clamped to the length; it is empty when the start is at or past the length or the end is not past the start |
| Lists.Filter | src/app/page.tsx:173-175 | an array `filter` keeps exactly the elements that pass the test: each kept element is from the input and passes, and each passing input element is kept |
| Lists.FilterIsSubsequence | src/lib/video-manager.ts:31-34 | a filter keeps the survivors in their original order (the result is a subsequence of the input) |
| Lists.FilterCounts | src/app/page.tsx:173-175 | a filter keeps every copy of a passing element and no copy of a failing one |
| Lists.FilterAppend | src/app/page.tsx:173-175 | filtering a concatenation filters each part and concatenates the results |
| Videos.MakeId | src/app/page.tsx:61 | a scanned file's id is its file name, a dash and its decimal modification time |
| Videos.MakeIdInjective | src/app/page.tsx:61 | two ids are equal only when both the file names and the modification times are, because the time text holds no dash; so ids collide exactly for same-named files with the same time |
| Videos.IsVideoName | src/app/page.tsx:58 | a file is a video when its lower-cased name ends in one of the five listed extensions |
| Videos.VideoNameByExtension | src/app/page.tsx:12-58 | a name passes the video test if and only if the extension of its lower-cased name is one of `.mp4`, `.mov`, `.mkv`, `.avi`, `.webm` |
| Videos.FolderPath | src/lib/video-manager.ts:23-25 | `getFolderPath` answers `""` for a path without a slash; otherwise the path is that folder, a slash, and a slash-free last segment |
| Videos.Extension | src/lib/video-manager.ts:49 | the "extension" is the whole name when the name has no dot; otherwise it is a dotted suffix of the name with no further dot |
| Videos.BaseName | src/app/page.tsx:121-122 | the part before the extension, which together with the extension gives back the name |
| Videos.ExtensionOfAppend | src/app/page.tsx:121-122 | appending a dotted, dot-free extension to any stem yields a name whose extension is exactly that extension |
| Videos.FolderOfChild | src/app/page.tsx:53 | the folder of `dir + "/" + name` is `dir` when the name has no slash |
| Videos.FindByPath | src/lib/video-manager.ts:42 | `findIndex` by path answers the first index holding the path, or -1 exactly when no record holds it |
| DirectoryWalk.ChildPath | src/app/page.tsx:53 | a child's path is the parent's path, a slash and the child's name |
| DirectoryWalk.IsExcluded | src/app/page.tsx:54 | a child is skipped when its path starts with at least one excluded string |
| DirectoryWalk.Scan | src/app/page.tsx:47-72 | the walk without a stop button: children in order, excluded ones skipped, video files reported, subfolders entered only in recursive mode |
| DirectoryWalk.VideoAt | src/app/page.tsx:60-65 | the record appended for a video file: the id built from its name and time, the joined path, and the file name |
| DirectoryWalk.ProcessDirectory | src/app/page.tsx:47-48 | every call of `processDirectory` makes at least one abort check (the one on entry) |
| DirectoryWalk.ProcessEntries | src/app/page.tsx:50-71 | the loop over children never goes back in the count of abort checks |
| DirectoryWalk.HandleScan | src/app/page.tsx:74-81 | `filesFound` equals the number of videos listed; the listed videos are a prefix of the uninterrupted scan and equal it when the completion notice is shown; without a stop the notice is always shown; stopped before the first check, nothing is listed and no notice is shown; and the notice is shown exactly when the stop, if any, is scheduled after the final flag check of line 76, so a stop seen at any check of the walk suppresses it |
| DirectoryWalk.DirectoryIsPrefixOfScan | src/app/page.tsx:47-49 | a directory's walk reports a prefix of its uninterrupted scan, and all of it unless the abort flag was seen set during the walk |
| DirectoryWalk.EntriesArePrefixOfScan | src/app/page.tsx:50-71 | the same for the loop over the remaining children, with the recursive call continuing the abort-check count |
| DirectoryWalk.DirectoryMatchesUnstopped | src/app/page.tsx:47-51 | a stop scheduled before the uninterrupted walk's last check is seen, and the stopped walk ends past it; a stop scheduled later leaves the walk exactly as without a stop |
| DirectoryWalk.EntriesMatchUnstopped | src/app/page.tsx:50-71 | the same for the loop over the remaining children |
| DirectoryWalk.SubdirectoryMatchesUnstopped | src/app/page.tsx:68-70 | the same across one recursive call into a subdirectory followed by the rest of the loop |
| DirectoryWalk.AbortedEntriesReportNothing | src/app/page.tsx:51 | once the flag is set at a check, the loop returns without reporting anything |
| DirectoryWalk.DirectoryCountsFiles | src/app/page.tsx:66-67 | the counter is incremented exactly once per appended video, in a directory walk |
| DirectoryWalk.EntriesCountFiles | src/app/page.tsx:58-70 | the same for the loop, including the videos of subdirectories |
| DirectoryWalk.AbortedScanIsSubset | src/app/page.tsx:74-76 | every video a stopped scan lists is one the full scan lists, and a scan without the notice was stopped |
| DirectoryWalk.ScanIsSound | src/app/page.tsx:53-69 | every reported video is the record of a file of the tree at its joined path, has a video extension, has a path beneath the starting path, and has a path starting with no excluded string |
| DirectoryWalk.UnfilteredScanIsComplete | src/app/page.tsx:58-70 | with no exclusions and recursion on, every video file of the tree is reported |
| DirectoryWalk.PruningIsFiltering | src/app/page.tsx:54-56 | skipping excluded children, subtrees included, reports exactly the unexcluded-scan's videos whose paths start with no excluded string, in the same order |
| DirectoryWalk.ScanReportsExactlyTheUnexcluded | src/app/page.tsx:53-69 | a video file of the tree is reported by a recursive scan if and only if its path starts with no excluded string |
| DirectoryWalk.ShallowScanReportsDirectChildren | src/app/page.tsx:68 | without recursion every reported video is a direct child of the starting folder |
| DirectoryWalk.ShallowScanOfNestedOnlyIsEmpty | src/app/page.tsx:58-68 | without recursion a folder with no video file among its direct children reports nothing, whatever its subfolders hold |
| PageActions.RenamedName | src/app/page.tsx:120-122 | the new file name is the requested base name followed by the old name's extension |
| PageActions.RenamedPath | src/app/page.tsx:134 | the new path is the old path up to its last slash, a slash and the new file name |
| PageActions.RenamedNameKeepsExtension | src/app/page.tsx:120-122 | the new file name starts with the requested name and keeps the old name's extension |
| PageActions.RenamedPathKeepsFolder | src/app/page.tsx:134 | the new path stays in the old path's folder |
| PageActions.RenameInFolder | src/app/page.tsx:120-134 | renaming `dir/stem.ext` to base name `n` lands on `dir/n.ext` |
| PageActions.PageRename | src/app/page.tsx:107-141 | an unknown path, a missing root or a failed move leaves the list unchanged; otherwise every record sharing the found record's id gets the new name and the new path, every other record is untouched, and ids and length are kept |
| PageActions.PageRenameRecord | src/app/page.tsx:139-140 | corrected rename: only the found record changes; it keeps its id and gets the new name and path |
| PageActions.PageRenameRoundTrip | src/app/page.tsx:120-140 | renaming the record of `folder/stem.ext` to `n` gives it name `n.ext` and path `folder/n.ext`, and renaming that back to `stem` restores the list, when its id is unique and no other record holds the new path |
| PageActions.PageRenameRecordRoundTrip | src/app/page.tsx:120-140 | the same round trip holds for the corrected rename without the unique-id condition |
| PageActions.RenamingInFolder | src/app/page.tsx:108-134 | the record of `folder/stem.ext` is the one found by its path, its base name is `stem`, and renaming it to `n` targets name `n.ext` at `folder/n.ext` |
| PageActions.PageExclude | src/app/page.tsx:168-175 | the folder is the path before its last slash and is appended only if absent, so a duplicate-free list stays so; no remaining video's path starts with the folder, every other video stays with all its copies, and the survivors keep their order |
| PageActions.OutsideFolder | src/app/page.tsx:173-175 | the list filter keeps, in order and with every copy, exactly the videos whose path does not start with the folder |
| PageActions.ExcludeTwiceAddsOnce | src/app/page.tsx:169-172 | excluding through two files of one folder adds that folder once |
| PageActions.ExcludeHidesPrefixSibling | src/app/page.tsx:174 | excluding via `/a/b/x.mp4` also drops `/a/bb/y.mp4`, because the test is a raw prefix |
| PageActions.ExcludeSlashlessPathClearsList | src/app/page.tsx:169-174 | a path without a slash excludes folder `""`, which every path starts with, so the whole list goes |
| PageActions.ExcludedFolderStaysHidden | src/app/page.tsx:54 | a later scan with the updated exclusion list reports no video under the excluded folder |
| PageActions.ScanCanRepeatIds | src/app/page.tsx:61 | two same-named files with the same modification time in different folders are reported with the same id and different paths |
| PageActions.PageRenameMovesIdTwins | src/app/page.tsx:139-140 | with two records of one id listed, renaming one moves both records to the renamed file's path |
| PageActions.PageRenameRecordKeepsIdTwin | src/app/page.tsx:139-140 | the corrected rename leaves the other record of the same id where it was, even when it is listed at the same path |
| VideoStore.ScanVideos | src/lib/video-manager.ts:27-37 | the scan returns exactly the stored videos whose folder is not in the excluded list, each as many times as stored, in stored order |
| VideoStore.ScanKeepsSubfolderVideos | src/lib/video-manager.ts:31-34 | a video in a subfolder of an excluded folder is still returned |
| VideoStore.CandidateName | src/lib/video-manager.ts:51-58 | attempt 0 names the file `newName + ext`, attempt k > 0 names it `newName_k + ext` |
| VideoStore.CandidatePath | src/lib/video-manager.ts:52-59 | the path each attempt checks is the original folder, a slash and that attempt's candidate name |
| VideoStore.Taken | src/lib/video-manager.ts:57 | the loop goes on while some record of a different id already has the candidate path |
| VideoStore.CandidateNameInjective | src/lib/video-manager.ts:51-60 | different attempt numbers give different candidate names |
| VideoStore.CandidatePathInjective | src/lib/video-manager.ts:51-60 | different attempt numbers give different candidate paths |
| VideoStore.UntriedDrops | src/lib/video-manager.ts:57-61 | each clash removes one record from those holding a path not yet tried, so the loop ends |
| VideoStore.FirstFree | src/lib/video-manager.ts:51-61 | the loop stops at the first attempt whose path no record of another id holds; every earlier attempt was held |
| VideoStore.RenameVideo | src/lib/video-manager.ts:39-67 | fails with "Video not found" exactly when no record has the path; otherwise only the found record changes, it keeps its id, its new path is its old folder, a slash and its new name, that path is not held by a record of another id, and its name is the first free candidate `newName + ext`, `newName_1 + ext`, … |
| VideoStore.RenameLeavesPathUnshared | src/lib/video-manager.ts:57-64 | after a rename no record of another id has the new path, and the list keeps its length |
| VideoStore.RenameKeepsFolderAndExtension | src/lib/video-manager.ts:47-63 | the renamed record stays in its folder when neither name has a slash, and keeps its extension when the old name has a dot |
| VideoStore.RenameToOwnBaseName | src/lib/video-manager.ts:42-64 | renaming the record of `folder/name` to its own base name succeeds, returns the record unchanged and leaves the store as it was, when no record of another id shares its path |
| VideoStore.RenameSkipsTwoClashes | src/lib/video-manager.ts:51-61 | in a folder holding `final.mp4` and `final_1.mp4`, renaming `clip.mp4` to `final` gives `final_2.mp4` |
| VideoStore.ExcludeFolder | src/lib/video-manager.ts:69-78 | the file's folder is appended only if absent, so a duplicate-free list stays so; the videos are untouched; the returned list equals the stored one |
| VideoStore.ExcludeTwiceAddsOnce | src/lib/video-manager.ts:72-75 | excluding through two files of one folder adds that folder once |
| VideoStore.ExcludeSameFolderTwice | src/lib/video-manager.ts:72-77 | excluding `/root/Vacation/clip.mp4` then `/root/Vacation/other.mp4` from an empty list gives `["/root/Vacation"]` |
| VideoStore.ExcludeHidesFolderFromScan | src/lib/video-manager.ts:31-34 | after excluding a file's folder, no video the store's scan returns lies directly in that folder |
| VideoGrid.Reset | src/components/video/video-grid.tsx:21-25 | after the list changes the visible list is its first min(24, n) videos, and `loadMore` holds iff n > 24 |
| VideoGrid.LoadStep | src/components/video/video-grid.tsx:31-44 | nothing changes unless the last card intersects and `loadMore` holds; a step adds at most 24 videos, keeps the visible list a prefix of the list (extending it to the next 24 or the rest), and never turns `loadMore` back on |
| VideoGrid.ResetIsValid | src/components/video/video-grid.tsx:21-25 | after a reset the grid shows a prefix and keeps loading exactly while videos are hidden |
| VideoGrid.LoadStepKeepsValid | src/components/video/video-grid.tsx:32-43 | a load step preserves that invariant |
| VideoGrid.ScrolledShowsBatches | src/components/video/video-grid.tsx:13-43 | after k scrolls to the end the first 24·(k+1) videos (or all) are visible, and loading continues exactly while some are hidden |
| VideoGrid.ScrollingRevealsAll | src/components/video/video-grid.tsx:41-43 | enough scrolls show the whole list and stop loading |

## Left out

- Host file-system calls are not modelled: the directory picker, `values()`, `getFile`, `getDirectoryHandle`, `move` and `getFileHandle`. The picked folder is an `Entry` tree. A page rename's outcome is `Host.hasRoot` and `Host.moveSucceeds`, the latter standing for the directory walk of lines 125-130, the move of line 132 and the handle lookup of line 137 together (src/app/page.tsx:125-137). The model does not separate a lookup that fails after a successful move: it treats it as a failed rename, leaving the list unchanged, as the page's catch does even though the file has moved.
- Read errors during a scan are not modelled: a folder that cannot be listed or a video file whose `getFile()` fails (src/app/page.tsx:59). The page catches either in the same handler, keeps the videos already listed and, instead of the completion notice, shows an error notice (none for an error named `AbortError`) (src/app/page.tsx:83-100). The model assumes every folder and file of the tree is readable.
- The error and notice texts are not modelled: the toasts, the browser error names and the messages of src/app/page.tsx. The store's one error, "Video not found", is kept.
- React state machinery is not modelled: batching of `setState`, the re-created observer and callbacks, and the `AbortController` as an object. A scan reads its excluded folders and recursive switch once, as `DirectoryWalk.Options`. Each page handler is a function from the old lists to the new ones.
- The `setTimeout` delays of the store are not modelled (src/lib/video-manager.ts:29, 40, 70).
- The file handle the page keeps in each record is not modelled, nor the rename's `!videoToUpdate.handle` test. Every record the scan creates carries a handle.
- The video card, player dialog, header, fake progress hook and the server-action stubs are not part of this model; they are presentation or stubs.
- JsString.ToLower: only ASCII letters are lower-cased; JavaScript's full Unicode case mapping is not modelled.
- JsString.NatToString: modification times are non-negative integers; JavaScript's rendering of fractions, negative numbers or values from 1e21 on is not modelled.
- VideoGrid.LoadStep: a step is taken against a fixed list, with the visible list the last step produced. Interleavings with a list change between the observer firing and the state update are not modelled.
- DirectoryWalk.Scan: the order of a directory's children is whatever the host's `values()` gives; the model takes it as the order of `children`.

## Findings

| source | as written | input that shows it | evidently intended | confidence | as-written member | corrected member |
|---|---|---|---|---|---|---|
| src/app/page.tsx:139-140 | after a rename the list update rewrites every record whose id equals the renamed record's id; ids are `name-lastModified` (line 61), which files in different folders can share | folder `r` holding `x/a.mp4` and `y/a.mp4`, both with modification time 5: the scan lists two records with id `a.mp4-5`; renaming `r/x/a.mp4` to `b` moves both records to `r/x/b.mp4` | only the record of the renamed file changes | medium, not executed | PageActions.PageRenameMovesIdTwins | PageActions.PageRenameRecordKeepsIdTwin |

=== FILE: directory_walk.dfy ===
/** The scan the page runs after the user picks a folder (`handleScan` in
    src/app/page.tsx): a depth-first walk of the picked directory that reports
    every video file it meets, skips any child whose path starts with an
    excluded folder string, descends only in recursive mode, and stops when the
    user presses the stop button.

    The host directory handles become the `Entry` tree; the stop button becomes
    an `Abort` schedule saying at which check of the abort flag the flag is first
    seen set. The walk itself (`ProcessDirectory`) counts those checks; `Scan` is
    the same walk with no stop button, stated without checks, and the lemmas
    relate the two. */
module DirectoryWalk {
  import opened JsString
  import opened Lists
  import opened Videos

  /** A child of a directory: a file with its modification time, or a directory. */
  datatype Entry =
    | File(name: string, lastModified: nat)
    | Directory(name: string, children: seq<Entry>)

  /** The page state a scan reads: the excluded folder strings and the recursive switch. */
  datatype Options = Options(excludedFolders: seq<string>, recursiveScan: bool)

  /** When the stop button takes effect: never, or from the given check of the
      abort flag on (checks are numbered from 0 in the order the walk makes them).
      The flag is never cleared, so once seen set it stays set. */
  datatype Abort = Never | AtCheck(check: nat)

  predicate AbortedAt(abort: Abort, t: nat) {
    abort.AtCheck? && abort.check <= t
  }

  /** What a walk has produced: the videos appended to the list in order, the
      `filesFound` counter, and how many abort checks it made in all. */
  datatype Progress = Progress(found: seq<Video>, filesFound: nat, checks: nat)

  /** What the completion notice needs: the list, the counter, and whether the
      notice is shown (the flag was still clear after the walk). */
  datatype ScanOutcome = ScanOutcome(videos: seq<Video>, filesFound: nat, completed: bool)

  /** `excludedFolders.some(excluded => currentPath.startsWith(excluded))`: a raw
      string prefix test, not aware of path segments. */
  predicate IsExcluded(path: string, excludedFolders: seq<string>) {
    exists i :: 0 <= i < |excludedFolders| && StartsWith(path, excludedFolders[i])
  }

  /** `${path}/${entry.name}`: the path of a child. */
  function ChildPath(path: string, name: string): string {
    path + "/" + name
  }

  /** The record appended for a video file found at `path`. */
  function VideoAt(path: string, name: string, lastModified: nat): Video {
    Video(MakeId(name, lastModified), path, name)
  }

  // ---------------------------------------------------------------------------
  // The walk as the page performs it

  /** `processDirectory(directoryHandle, path)`: one abort check on entry, then the loop. */
  function ProcessDirectory(children: seq<Entry>, path: string, opts: Options, abort: Abort, t: nat)
    : (p: Progress)
    ensures p.checks > t
    decreases children, 1
  {
    if AbortedAt(abort, t) then Progress([], 0, t + 1)
    else ProcessEntries(children, path, opts, abort, t + 1)
  }

  /** The `for await` loop over the remaining children, one abort check before each. */
  function ProcessEntries(es: seq<Entry>, path: string, opts: Options, abort: Abort, t: nat)
    : (p: Progress)
    ensures p.checks >= t
    decreases es, 0
  {
    if es == [] then Progress([], 0, t)
    else if AbortedAt(abort, t) then Progress([], 0, t + 1)
    else
      var e := es[0];
      var current := ChildPath(path, e.name);
      if IsExcluded(current, opts.excludedFolders) then
        ProcessEntries(es[1..], path, opts, abort, t + 1)
      else if e.File? && IsVideoName(e.name) then
        var rest := ProcessEntries(es[1..], path, opts, abort, t + 1);
        Progress([VideoAt(current, e.name, e.lastModified)] + rest.found, rest.filesFound + 1, rest.checks)
      else if e.Directory? && opts.recursiveScan then
        var sub := ProcessDirectory(e.children, current, opts, abort, t + 1);
        var rest := ProcessEntries(es[1..], path, opts, abort, sub.checks);
        Progress(sub.found + rest.found, sub.filesFound + rest.filesFound, rest.checks)
      else
        ProcessEntries(es[1..], path, opts, abort, t + 1)
  }

  // ---------------------------------------------------------------------------
  // The same walk without a stop button

  /** The videos an uninterrupted walk of `es` under `path` reports, in walk order. */
  function Scan(es: seq<Entry>, path: string, opts: Options): seq<Video>
    decreases es
  {
    if es == [] then []
    else
      var e := es[0];
      var current := ChildPath(path, e.name);
      var here :=
        if IsExcluded(current, opts.excludedFolders) then []
        else if e.File? && IsVideoName(e.name) then [VideoAt(current, e.name, e.lastModified)]
        else if e.Directory? && opts.recursiveScan then Scan(e.children, current, opts)
        else [];
      here + Scan(es[1..], path, opts)
  }

  /** `v` is the record for some file of the tree `es` hanging under `path`:
      its path is the chain of directory names joined by "/" onto `path`,
      and its id is built from that file's name and modification time. */
  ghost predicate Located(es: seq<Entry>, path: string, v: Video)
    decreases es
  {
    && es != []
    && (|| (es[0].File? && v == VideoAt(ChildPath(path, es[0].name), es[0].name, es[0].lastModified))
        || (es[0].Directory? && Located(es[0].children, ChildPath(path, es[0].name), v))
        || Located(es[1..], path, v))
  }

  // ---------------------------------------------------------------------------
  // The scan as the page runs it

  /** `handleScan` after the picker: walk from the root with its own name as the
      path, then show the completion notice only if the flag is still clear. */
  function HandleScan(root: Entry, opts: Options, abort: Abort): (r: ScanOutcome)
    requires root.Directory?
    ensures r.filesFound == |r.videos|
    ensures r.videos <= Scan(root.children, root.name, opts)
    ensures r.completed ==> r.videos == Scan(root.children, root.name, opts)
    ensures abort == Never ==> r.completed
    ensures abort == AtCheck(0) ==> r.videos == [] && !r.completed
    ensures r.completed <==> !AbortedAt(abort, ProcessDirectory(root.children, root.name, opts, Never, 0).checks)
  {
    var p := ProcessDirectory(root.children, root.name, opts, abort, 0);
    DirectoryMatchesUnstopped(root.children, root.name, opts, abort, 0);
    DirectoryIsPrefixOfScan(root.children, root.name, opts, abort, 0);
    DirectoryCountsFiles(root.children, root.name, opts, abort, 0);
    ScanOutcome(p.found, p.filesFound, !AbortedAt(abort, p.checks))
  }

  // ---------------------------------------------------------------------------
  // Cancellation

  /** A walk reports a prefix of what the uninterrupted walk reports, and when it
      reports less, the flag was seen set before its last check. */
  lemma {:induction false} DirectoryIsPrefixOfScan(cs: seq<Entry>, path: string, opts: Options, abort: Abort, t: nat)
    ensures var p := ProcessDirectory(cs, path, opts, abort, t);
      && p.found <= Scan(cs, path, opts)
      && (p.found == Scan(cs, path, opts) || (abort.AtCheck? && abort.check < p.checks))
    decreases cs, 1
  {
    if !AbortedAt(abort, t) {
      EntriesArePrefixOfScan(cs, path, opts, abort, t + 1);
    }
  }

  lemma {:induction false} EntriesArePrefixOfScan(es: seq<Entry>, path: string, opts: Options, abort: Abort, t: nat)
    ensures var p := ProcessEntries(es, path, opts, abort, t);
      && p.found <= Scan(es, path, opts)
      && (p.found == Scan(es, path, opts) || (abort.AtCheck? && abort.check < p.checks))
    decreases es, 0
  {
    if es != [] && !AbortedAt(abort, t) {
      var e := es[0];
      var current := ChildPath(path, e.name);
      if IsExcluded(current, opts.excludedFolders) {
        EntriesArePrefixOfScan(es[1..], path, opts, abort, t + 1);
      } else if e.File? && IsVideoName(e.name) {
        EntriesArePrefixOfScan(es[1..], path, opts, abort, t + 1);
      } else if e.Directory? && opts.recursiveScan {
        var sub := ProcessDirectory(e.children, current, opts, abort, t + 1);
        var rest := ProcessEntries(es[1..], path, opts, abort, sub.checks);
        DirectoryIsPrefixOfScan(e.children, current, opts, abort, t + 1);
        EntriesArePrefixOfScan(es[1..], path, opts, abort, sub.checks);
        if sub.found != Scan(e.children, current, opts) {
          AbortedEntriesReportNothing(es[1..], path, opts, abort, sub.checks);
        }
      } else {
        EntriesArePrefixOfScan(es[1..], path, opts, abort, t + 1);
      }
    }
  }

  /** Once the flag is set, the loop returns at its next check without reporting anything. */
  lemma AbortedEntriesReportNothing(es: seq<Entry>, path: string, opts: Options, abort: Abort, t: nat)
    requires AbortedAt(abort, t)
    ensures ProcessEntries(es, path, opts, abort, t).found == []
  {
  }

  /** `filesFound` is incremented exactly once per appended video. */
  lemma {:induction false} DirectoryCountsFiles(cs: seq<Entry>, path: string, opts: Options, abort: Abort, t: nat)
    ensures var p := ProcessDirectory(cs, path, opts, abort, t); p.filesFound == |p.found|
    decreases cs, 1
  {
    if !AbortedAt(abort, t) {
      EntriesCountFiles(cs, path, opts, abort, t + 1);
    }
  }

  lemma {:induction false} EntriesCountFiles(es: seq<Entry>, path: string, opts: Options, abort: Abort, t: nat)
    ensures var p := ProcessEntries(es, path, opts, abort, t); p.filesFound == |p.found|
    decreases es, 0
  {
    if es != [] && !AbortedAt(abort, t) {
      var e := es[0];
      var current := ChildPath(path, e.name);
      if IsExcluded(current, opts.excludedFolders) {
        EntriesCountFiles(es[1..], path, opts, abort, t + 1);
      } else if e.File? && IsVideoName(e.name) {
        EntriesCountFiles(es[1..], path, opts, abort, t + 1);
      } else if e.Directory? && opts.recursiveScan {
        var sub := ProcessDirectory(e.children, current, opts, abort, t + 1);
        DirectoryCountsFiles(e.children, current, opts, abort, t + 1);
        EntriesCountFiles(es[1..], path, opts, abort, sub.checks);
      } else {
        EntriesCountFiles(es[1..], path, opts, abort, t + 1);
      }
    }
  }

  /** A stop scheduled before the uninterrupted walk's last check is seen by the
      walk, which then ends past it; a stop scheduled later leaves the walk exactly
      as it is without a stop. */
  lemma {:induction false} DirectoryMatchesUnstopped(cs: seq<Entry>, path: string, opts: Options, abort: Abort, t: nat)
    ensures var n := ProcessDirectory(cs, path, opts, Never, t);
      var p := ProcessDirectory(cs, path, opts, abort, t);
      if abort.AtCheck? && abort.check < n.checks then abort.check < p.checks else p == n
    decreases cs, 2
  {
    if !AbortedAt(abort, t) {
      EntriesMatchUnstopped(cs, path, opts, abort, t + 1);
    }
  }

  lemma {:induction false} EntriesMatchUnstopped(es: seq<Entry>, path: string, opts: Options, abort: Abort, t: nat)
    ensures var n := ProcessEntries(es, path, opts, Never, t);
      var p := ProcessEntries(es, path, opts, abort, t);
      if abort.AtCheck? && abort.check < n.checks then abort.check < p.checks else p == n
    decreases es, 1
  {
    if es != [] {
      var e := es[0];
      if IsExcluded(ChildPath(path, e.name), opts.excludedFolders) || !(e.Directory? && opts.recursiveScan) {
        EntriesMatchUnstopped(es[1..], path, opts, abort, t + 1);
      } else if !AbortedAt(abort, t) {
        SubdirectoryMatchesUnstopped(es, path, opts, abort, t);
      }
    }
  }

  /** The step of `EntriesMatchUnstopped` that enters a subdirectory: the
      subdirectory's walk is compared first, then the rest of the loop. */
  lemma {:induction false} SubdirectoryMatchesUnstopped(es: seq<Entry>, path: string, opts: Options, abort: Abort, t: nat)
    requires es != [] && es[0].Directory? && opts.recursiveScan
    requires !AbortedAt(abort, t)
    ensures var sub := ProcessDirectory(es[0].children, ChildPath(path, es[0].name), opts, Never, t + 1);
      var n := ProcessEntries(es[1..], path, opts, Never, sub.checks);
      var subP := ProcessDirectory(es[0].children, ChildPath(path, es[0].name), opts, abort, t + 1);
      var p := ProcessEntries(es[1..], path, opts, abort, subP.checks);
      if abort.AtCheck? && abort.check < n.checks then abort.check < p.checks
      else subP == sub && p == n
    decreases es, 0
  {
    var e := es[0];
    var current := ChildPath(path, e.name);
    var subN := ProcessDirectory(e.children, current, opts, Never, t + 1);
    var subP := ProcessDirectory(e.children, current, opts, abort, t + 1);
    DirectoryMatchesUnstopped(e.children, current, opts, abort, t + 1);
    if subP == subN {
      EntriesMatchUnstopped(es[1..], path, opts, abort, subN.checks);
    } else {
      var p := ProcessEntries(es[1..], path, opts, abort, subP.checks);
      assert abort.AtCheck? && abort.check < subP.checks;
    }
  }

  /** An aborted scan reports a subset of what the full scan reports, and no
      completion notice is shown unless every video was reported. */
  lemma AbortedScanIsSubset(root: Entry, opts: Options, abort: Abort)
    requires root.Directory?
    ensures var r := HandleScan(root, opts, abort);
      && (forall v :: v in r.videos ==> v in Scan(root.children, root.name, opts))
      && (r.completed || abort.AtCheck?)
  {
    var r := HandleScan(root, opts, abort);
    var full := Scan(root.children, root.name, opts);
    forall v | v in r.videos
      ensures v in full
    {
      var i :| 0 <= i < |r.videos| && r.videos[i] == v;
      assert full[i] == v;
    }
  }

  // ---------------------------------------------------------------------------
  // What the uninterrupted walk reports

  /** Every reported record is a video file of the tree at the path the walk built
      for it, under `path` + "/", and its path starts with no excluded folder. */
  lemma {:induction false} ScanIsSound(es: seq<Entry>, path: string, opts: Options)
    ensures forall v :: v in Scan(es, path, opts) ==>
      && Located(es, path, v)
      && IsVideoName(v.name)
      && StartsWith(v.path, path + "/")
      && !IsExcluded(v.path, opts.excludedFolders)
    decreases es
  {
    if es != [] {
      var e := es[0];
      var current := ChildPath(path, e.name);
      ScanIsSound(es[1..], path, opts);
      if !IsExcluded(current, opts.excludedFolders) && !(e.File? && IsVideoName(e.name))
         && e.Directory? && opts.recursiveScan {
        ScanIsSound(e.children, current, opts);
        forall v | v in Scan(e.children, current, opts)
          ensures StartsWith(v.path, path + "/")
        {
          StartsWithTrans(v.path, current + "/", path + "/");
        }
      }
    }
  }

  /** A recursive scan with no exclusions reports every video file of the tree. */
  lemma {:induction false} UnfilteredScanIsComplete(es: seq<Entry>, path: string, v: Video)
    requires Located(es, path, v) && IsVideoName(v.name)
    ensures v in Scan(es, path, Options([], true))
    decreases es
  {
    var opts := Options([], true);
    var e := es[0];
    if e.File? && v == VideoAt(ChildPath(path, e.name), e.name, e.lastModified) {
    } else if e.Directory? && Located(e.children, ChildPath(path, e.name), v) {
      UnfilteredScanIsComplete(e.children, ChildPath(path, e.name), v);
    } else {
      UnfilteredScanIsComplete(es[1..], path, v);
    }
  }

  /** Pruning excluded children during the walk reports exactly what filtering an
      unpruned walk by the same prefix test would: an excluded directory takes its
      whole subtree with it, because every path below it starts with its path. */
  lemma {:induction false} PruningIsFiltering(es: seq<Entry>, path: string, opts: Options)
    ensures Scan(es, path, opts)
      == Filter(Scan(es, path, opts.(excludedFolders := [])),
                (v: Video) => !IsExcluded(v.path, opts.excludedFolders))
    decreases es
  {
    if es != [] {
      var keep := (v: Video) => !IsExcluded(v.path, opts.excludedFolders);
      var plain := opts.(excludedFolders := []);
      var e := es[0];
      var current := ChildPath(path, e.name);
      PruningIsFiltering(es[1..], path, opts);
      if e.Directory? && opts.recursiveScan {
        var inner := Scan(e.children, current, plain);
        if IsExcluded(current, opts.excludedFolders) {
          var i :| 0 <= i < |opts.excludedFolders| && StartsWith(current, opts.excludedFolders[i]);
          ScanIsSound(e.children, current, plain);
          forall k | 0 <= k < |inner|
            ensures !keep(inner[k])
          {
            assert inner[k] in inner;
            StartsWithTrans(inner[k].path, current + "/", current);
            StartsWithTrans(inner[k].path, current, opts.excludedFolders[i]);
          }
          FilterNoneKept(inner, keep);
        } else {
          PruningIsFiltering(e.children, current, opts);
        }
      }
      var here := if e.Directory? && opts.recursiveScan then Scan(e.children, current, plain)
        else if e.File? && IsVideoName(e.name) then [VideoAt(current, e.name, e.lastModified)]
        else [];
      assert Scan(es, path, plain) == here + Scan(es[1..], path, plain);
      FilterAppend(here, Scan(es[1..], path, plain), keep);
    }
  }

  /** Both directions: a recursive scan reports a video file of the tree exactly
      when its path starts with no excluded folder. */
  lemma ScanReportsExactlyTheUnexcluded(es: seq<Entry>, path: string, excluded: seq<string>, v: Video)
    requires Located(es, path, v) && IsVideoName(v.name)
    ensures v in Scan(es, path, Options(excluded, true)) <==> !IsExcluded(v.path, excluded)
  {
    var opts := Options(excluded, true);
    ScanIsSound(es, path, opts);
    UnfilteredScanIsComplete(es, path, v);
    PruningIsFiltering(es, path, opts);
  }

  /** With `recursiveScan` off, only direct children of the scanned directory are reported. */
  lemma {:induction false} ShallowScanReportsDirectChildren(es: seq<Entry>, path: string, excluded: seq<string>)
    ensures forall v :: v in Scan(es, path, Options(excluded, false)) ==>
      v.path == ChildPath(path, v.name)
    decreases es
  {
    if es != [] {
      ShallowScanReportsDirectChildren(es[1..], path, excluded);
    }
  }

  /** A directory whose videos all sit in subdirectories yields nothing without recursion. */
  lemma {:induction false} ShallowScanOfNestedOnlyIsEmpty(es: seq<Entry>, path: string, excluded: seq<string>)
    requires forall i :: 0 <= i < |es| && es[i].File? ==> !IsVideoName(es[i].name)
    ensures Scan(es, path, Options(excluded, false)) == []
    decreases es
  {
    if es != [] {
      ShallowScanOfNestedOnlyIsEmpty(es[1..], path, excluded);
    }
  }
}

=== FILE: js_string.dfy ===
/** The few JavaScript string operations the video browser relies on, with the
    edge-case behaviour of the ECMAScript definitions: `lastIndexOf` answers -1
    when the character is absent, `substring` clamps negative and oversized
    indices and swaps reversed ones, `slice` on arrays clamps to the length. */
module JsString {

  /** `s.lastIndexOf(c)` for a one-character search string. */
  function LastIndexOf(s: string, c: char): (r: int)
    ensures -1 <= r < |s|
    ensures r == -1 <==> c !in s
    ensures r >= 0 ==> s[r] == c && c !in s[r + 1..]
  {
    if |s| == 0 then -1
    else if s[|s| - 1] == c then |s| - 1
    else
      var r := LastIndexOf(s[..|s| - 1], c);
      assert s == s[..|s| - 1] + [s[|s| - 1]];
      r
  }

  /** The index clamping `substring` applies to each argument. */
  function Clamp(i: int, len: nat): (r: nat)
    ensures r <= len
    ensures 0 <= i <= len ==> r == i
  {
    if i < 0 then 0 else if i > len then len else i
  }

  /** `s.substring(start, end)`: both indices clamped to [0, |s|], then swapped if reversed. */
  function Substring(s: string, start: int, end: int): (r: string)
    ensures 0 <= start <= end <= |s| ==> r == s[start..end]
    ensures 0 <= end <= start <= |s| ==> r == s[end..start]
    ensures end <= 0 && start <= 0 ==> r == []
    ensures |r| <= |s|
  {
    var a := Clamp(start, |s|);
    var b := Clamp(end, |s|);
    if a <= b then s[a..b] else s[b..a]
  }

  /** `s.substring(start)`: the end defaults to the length. */
  function SubstringFrom(s: string, start: int): (r: string)
    ensures start <= 0 ==> r == s
    ensures 0 <= start <= |s| ==> r == s[start..]
  {
    Substring(s, start, |s|)
  }

  predicate StartsWith(s: string, prefix: string) {
    |prefix| <= |s| && s[..|prefix|] == prefix
  }

  predicate EndsWith(s: string, suffix: string) {
    |suffix| <= |s| && s[|s| - |suffix|..] == suffix
  }

  /** `toLowerCase` on the ASCII letters; every other character is left alone. */
  function LowerChar(c: char): char {
    if 'A' <= c <= 'Z' then (c as int + 32) as char else c
  }

  function ToLower(s: string): (r: string)
    ensures |r| == |s|
    ensures forall i :: 0 <= i < |s| ==> r[i] == LowerChar(s[i])
  {
    seq(|s|, i requires 0 <= i < |s| => LowerChar(s[i]))
  }

  /** `arr.slice(start, end)` for non-negative indices: clamped to the length,
      and empty when the end is not past the start. */
  function Slice<T>(s: seq<T>, start: nat, end: nat): (r: seq<T>)
    ensures |r| <= |s|
    ensures start <= |s| && start <= end ==> r == s[start..if end <= |s| then end else |s|]
    ensures |s| <= start ==> r == []
    ensures end <= start ==> r == []
  {
    var a := if start <= |s| then start else |s|;
    var b := if end <= |s| then end else |s|;
    if a <= b then s[a..b] else []
  }

  function DigitChar(d: nat): char
    requires d < 10
  {
    ('0' as int + d) as char
  }

  /** Decimal text of a non-negative integer, as template-literal interpolation writes it. */
  function NatToString(n: nat): (r: string)
    ensures |r| >= 1
    ensures n < 10 <==> |r| == 1
    ensures forall i :: 0 <= i < |r| ==> '0' <= r[i] <= '9'
  {
    if n < 10 then [DigitChar(n)] else NatToString(n / 10) + [DigitChar(n % 10)]
  }

  /** Distinct numbers have distinct decimal texts. */
  lemma {:induction false} NatToStringInjective(m: nat, n: nat)
    requires NatToString(m) == NatToString(n)
    ensures m == n
  {
    if m >= 10 && n >= 10 {
      var sm, sn := NatToString(m), NatToString(n);
      assert sm[..|sm| - 1] == NatToString(m / 10);
      assert sn[..|sn| - 1] == NatToString(n / 10);
      NatToStringInjective(m / 10, n / 10);
      assert DigitChar(m % 10) == sm[|sm| - 1] == sn[|sn| - 1] == DigitChar(n % 10);
    }
  }

  /** Removing the same prefix and suffix from two equal strings leaves equal middles. */
  lemma CancelAround(a: string, x: string, y: string, b: string)
    requires a + x + b == a + y + b
    ensures x == y
  {
    assert |x| == |y|;
    assert x == (a + x + b)[|a|..|a| + |x|];
    assert y == (a + y + b)[|a|..|a| + |y|];
  }

  /** The last occurrence of `c` in `a + b` lies in `b` whenever `b` holds one. */
  lemma {:induction false} LastIndexOfAppend(a: string, b: string, c: char)
    requires c in b
    ensures LastIndexOf(a + b, c) == |a| + LastIndexOf(b, c)
  {
    var k := LastIndexOf(b, c);
    var r := LastIndexOf(a + b, c);
    assert (a + b)[|a| + k] == c;
    assert (a + b)[|a| + k + 1..] == b[k + 1..];
  }

  /** A prefix of a prefix is a prefix. */
  lemma StartsWithTrans(s: string, t: string, u: string)
    requires StartsWith(s, t) && StartsWith(t, u)
    ensures StartsWith(s, u)
  {
    assert s[..|u|] == s[..|t|][..|u|];
  }
}

=== FILE: lists.dfy ===
/** `Array.prototype.filter` and the order facts the rest of the model needs about it. */
module Lists {

  /** `s.filter(keep)`: the elements that pass, in their original order. */
  function Filter<T>(s: seq<T>, keep: T -> bool): (r: seq<T>)
    ensures |r| <= |s|
    ensures forall i :: 0 <= i < |r| ==> r[i] in s && keep(r[i])
    ensures forall i :: 0 <= i < |s| && keep(s[i]) ==> s[i] in r
  {
    if s == [] then []
    else if keep(s[0]) then [s[0]] + Filter(s[1..], keep)
    else Filter(s[1..], keep)
  }

  /** No element occurs twice. */
  predicate NoDuplicates<T(==)>(s: seq<T>) {
    forall i, j :: 0 <= i < j < |s| ==> s[i] != s[j]
  }

  /** `r` can be obtained from `s` by deleting elements, so it keeps their order. */
  ghost predicate IsSubsequence<T>(r: seq<T>, s: seq<T>)
    decreases |s|
  {
    if r == [] then true
    else if s == [] then false
    else (r[0] == s[0] && IsSubsequence(r[1..], s[1..])) || IsSubsequence(r, s[1..])
  }

  lemma {:induction false} FilterIsSubsequence<T>(s: seq<T>, keep: T -> bool)
    ensures IsSubsequence(Filter(s, keep), s)
  {
    if s != [] {
      FilterIsSubsequence(s[1..], keep);
    }
  }

  /** Filtering a concatenation filters each part. */
  lemma {:induction false} FilterAppend<T>(a: seq<T>, b: seq<T>, keep: T -> bool)
    ensures Filter(a + b, keep) == Filter(a, keep) + Filter(b, keep)
  {
    if a == [] {
      assert a + b == b;
    } else {
      assert (a + b)[1..] == a[1..] + b;
      FilterAppend(a[1..], b, keep);
    }
  }

  /** A filter keeps every copy of a passing element and no copy of a failing one. */
  lemma {:induction false} FilterCounts<T>(s: seq<T>, keep: T -> bool)
    ensures forall x :: multiset(Filter(s, keep))[x] == if keep(x) then multiset(s)[x] else 0
  {
    if s != [] {
      FilterCounts(s[1..], keep);
      assert s == [s[0]] + s[1..];
    }
  }

  /** Nothing is dropped when every element passes. */
  lemma {:induction false} FilterAllKept<T>(s: seq<T>, keep: T -> bool)
    requires forall i :: 0 <= i < |s| ==> keep(s[i])
    ensures Filter(s, keep) == s
  {
    if s != [] {
      FilterAllKept(s[1..], keep);
    }
  }

  /** Everything is dropped when no element passes. */
  lemma {:induction false} FilterNoneKept<T>(s: seq<T>, keep: T -> bool)
    requires forall i :: 0 <= i < |s| ==> !keep(s[i])
    ensures Filter(s, keep) == []
  {
    if s != [] {
      FilterNoneKept(s[1..], keep);
    }
  }
}

=== FILE: page_actions.dfy ===
/** The list edits of the page (src/app/page.tsx): `handleRename`, which renames
    a file on disk and then rewrites the records sharing its id, and
    `handleExclude`, which remembers a folder for later scans and drops every
    listed video whose path starts with it. */
module PageActions {
  import opened JsString
  import opened Lists
  import opened Videos
  import DirectoryWalk

  /** What the host decides during a rename: whether a root folder with write
      access was picked, and whether the on-disk move succeeded. */
  datatype Host = Host(hasRoot: bool, moveSucceeds: bool)

  /** The page's two lists. */
  datatype PageState = PageState(videos: seq<Video>, excludedFolders: seq<string>)

  /** The name `handleRename` gives the file: the new base name followed by the
      old name's text from its last dot (the whole old name when it has none). */
  function RenamedName(oldName: string, newName: string): string {
    newName + Extension(oldName)
  }

  /** The path of the renamed file: the old path up to its last slash, a slash, the new name. */
  function RenamedPath(path: string, finalName: string): string {
    FolderPath(path) + "/" + finalName
  }

  /** The new name starts with the requested base name and keeps the old extension. */
  lemma RenamedNameKeepsExtension(oldName: string, newName: string)
    ensures StartsWith(RenamedName(oldName, newName), newName)
    ensures '.' in oldName ==> Extension(RenamedName(oldName, newName)) == Extension(oldName)
  {
    if '.' in oldName {
      ExtensionOfAppend(newName, Extension(oldName));
    }
    assert RenamedName(oldName, newName)[..|newName|] == newName;
  }

  /** The renamed file stays in its folder when the new name has no slash. */
  lemma RenamedPathKeepsFolder(path: string, finalName: string)
    requires '/' !in finalName
    ensures FolderPath(RenamedPath(path, finalName)) == FolderPath(path)
  {
    FolderOfChild(FolderPath(path), finalName);
  }

  /** The list after `handleRename(path, newName)`, as the page writes it: every
      record whose id equals the found record's id takes the new name and path. */
  function PageRename(videos: seq<Video>, path: string, newName: string, host: Host): (r: seq<Video>)
    ensures |r| == |videos|
    ensures FindByPath(videos, path) < 0 || !host.hasRoot || !host.moveSucceeds ==> r == videos
    ensures forall j :: 0 <= j < |r| ==> r[j].id == videos[j].id
    ensures FindByPath(videos, path) >= 0 && host.hasRoot && host.moveSucceeds ==>
      var target := videos[FindByPath(videos, path)];
      && (forall j :: 0 <= j < |r| && videos[j].id != target.id ==> r[j] == videos[j])
      && (forall j :: 0 <= j < |r| && videos[j].id == target.id ==>
            && r[j].name == RenamedName(target.name, newName)
            && r[j].path == RenamedPath(path, r[j].name))
  {
    var i := FindByPath(videos, path);
    if i < 0 || !host.hasRoot || !host.moveSucceeds then videos
    else
      var target := videos[i];
      var finalName := RenamedName(target.name, newName);
      var newPath := RenamedPath(path, finalName);
      seq(|videos|, j requires 0 <= j < |videos| =>
        if videos[j].id == target.id then videos[j].(name := finalName, path := newPath) else videos[j])
  }

  /** The page's rename, updating only the record the path was found at. */
  function PageRenameRecord(videos: seq<Video>, path: string, newName: string, host: Host): (r: seq<Video>)
    ensures |r| == |videos|
    ensures FindByPath(videos, path) < 0 || !host.hasRoot || !host.moveSucceeds ==> r == videos
    ensures FindByPath(videos, path) >= 0 && host.hasRoot && host.moveSucceeds ==>
      var i := FindByPath(videos, path);
      && (forall j :: 0 <= j < |r| && j != i ==> r[j] == videos[j])
      && r[i].id == videos[i].id
      && r[i].name == RenamedName(videos[i].name, newName)
      && r[i].path == RenamedPath(path, r[i].name)
  {
    var i := FindByPath(videos, path);
    if i < 0 || !host.hasRoot || !host.moveSucceeds then videos
    else
      var finalName := RenamedName(videos[i].name, newName);
      videos[i := videos[i].(name := finalName, path := RenamedPath(path, finalName))]
  }

  /** A record whose path is its folder, a slash and its name, with a dotted name. */
  predicate WellFormed(v: Video) {
    && v.path == FolderPath(v.path) + "/" + v.name
    && '/' !in v.name
    && '.' in v.name
  }

  /** Renaming the record of `folder/stem.ext` to `newName` and then back to `stem`
      restores the list, provided its id is unique and nothing else held the new path. */
  lemma PageRenameRoundTrip(videos: seq<Video>, i: nat, folder: string, stem: string, ext: string,
                            newName: string, host: Host)
    requires host.hasRoot && host.moveSucceeds
    requires i < |videos|
    requires |ext| >= 1 && ext[0] == '.' && '.' !in ext[1..]
    requires '/' !in stem + ext && '/' !in newName
    requires videos[i].path == folder + "/" + (stem + ext) && videos[i].name == stem + ext
    requires forall j :: 0 <= j < i ==> videos[j].path != videos[i].path
    requires forall j :: 0 <= j < |videos| && j != i ==> videos[j].id != videos[i].id
    requires forall j :: 0 <= j < |videos| && j != i ==> videos[j].path != folder + "/" + (newName + ext)
    ensures var once := PageRename(videos, videos[i].path, newName, host);
      && once[i].name == newName + ext
      && once[i].path == folder + "/" + (newName + ext)
      && PageRename(once, once[i].path, stem, host) == videos
  {
    var path := videos[i].path;
    RenamingInFolder(videos, i, folder, stem, ext, newName);
    var once := PageRename(videos, path, newName, host);
    RoundTripCommon(videos, path, newName, host, once);
    PageRenameBack(videos, once, i, stem, host);
  }

  /** The same round trip for the record-only rename needs no uniqueness of ids. */
  lemma PageRenameRecordRoundTrip(videos: seq<Video>, i: nat, folder: string, stem: string, ext: string,
                                  newName: string, host: Host)
    requires host.hasRoot && host.moveSucceeds
    requires i < |videos|
    requires |ext| >= 1 && ext[0] == '.' && '.' !in ext[1..]
    requires '/' !in stem + ext && '/' !in newName
    requires videos[i].path == folder + "/" + (stem + ext) && videos[i].name == stem + ext
    requires forall j :: 0 <= j < i ==> videos[j].path != videos[i].path
    requires forall j :: 0 <= j < |videos| && j != i ==> videos[j].path != folder + "/" + (newName + ext)
    ensures var once := PageRenameRecord(videos, videos[i].path, newName, host);
      && once[i].name == newName + ext
      && once[i].path == folder + "/" + (newName + ext)
      && PageRenameRecord(once, once[i].path, stem, host) == videos
  {
    var path := videos[i].path;
    RenamingInFolder(videos, i, folder, stem, ext, newName);
    var once := PageRenameRecord(videos, path, newName, host);
    RoundTripCommon(videos, path, newName, host, once);
    PageRenameRecordBack(videos, once, i, stem, host);
  }

  /** The facts both round trips start from: the record of `folder/stem.ext` is the
      one found, it is well formed, its base name is `stem`, and the rename targets
      `folder/newName.ext`. */
  lemma RenamingInFolder(videos: seq<Video>, i: nat, folder: string, stem: string, ext: string, newName: string)
    requires i < |videos|
    requires |ext| >= 1 && ext[0] == '.' && '.' !in ext[1..]
    requires '/' !in stem + ext
    requires videos[i].path == folder + "/" + (stem + ext) && videos[i].name == stem + ext
    requires forall j :: 0 <= j < i ==> videos[j].path != videos[i].path
    ensures FindByPath(videos, videos[i].path) == i
    ensures WellFormed(videos[i])
    ensures BaseName(videos[i].name) == stem
    ensures RenamedName(videos[i].name, newName) == newName + ext
    ensures RenamedPath(videos[i].path, RenamedName(videos[i].name, newName)) == folder + "/" + (newName + ext)
  {
    var name := stem + ext;
    FoundAt(videos, videos[i].path, i);
    FolderOfChild(folder, name);
    ExtensionOfAppend(stem, ext);
    assert BaseName(name) + ext == stem + ext;
    assert BaseName(name) == (stem + ext)[..|stem|] == stem;
    assert name[|stem|] == '.';
    RenameInFolder(folder, stem, ext, newName);
  }

  /** The second rename of a round trip: the record is found at index `i`, and its
      renamed name and path are the ones `videos` holds there. */
  lemma PageRenameBack(videos: seq<Video>, once: seq<Video>, i: nat, base: string, host: Host)
    requires host.hasRoot && host.moveSucceeds
    requires |once| == |videos| && i < |once|
    requires FindByPath(once, once[i].path) == i
    requires once[i].id == videos[i].id
    requires RenamedName(once[i].name, base) == videos[i].name
    requires RenamedPath(once[i].path, videos[i].name) == videos[i].path
    requires forall j :: 0 <= j < |once| && j != i ==> once[j] == videos[j] && once[j].id != once[i].id
    ensures PageRename(once, once[i].path, base, host) == videos
  {
    var twice := PageRename(once, once[i].path, base, host);
    assert twice[i] == videos[i];
    assert twice == videos;
  }

  lemma PageRenameRecordBack(videos: seq<Video>, once: seq<Video>, i: nat, base: string, host: Host)
    requires host.hasRoot && host.moveSucceeds
    requires |once| == |videos| && i < |once|
    requires FindByPath(once, once[i].path) == i
    requires once[i].id == videos[i].id
    requires RenamedName(once[i].name, base) == videos[i].name
    requires RenamedPath(once[i].path, videos[i].name) == videos[i].path
    requires forall j :: 0 <= j < |once| && j != i ==> once[j] == videos[j]
    ensures PageRenameRecord(once, once[i].path, base, host) == videos
  {
    var renamed := once[i].(name := RenamedName(once[i].name, base),
                            path := RenamedPath(once[i].path, RenamedName(once[i].name, base)));
    assert renamed == videos[i];
    assert PageRenameRecord(once, once[i].path, base, host) == once[i := renamed];
  }

  /** What both round trips share: after the first rename the record is found at its
      new path, and renaming it back yields its old name and old path. */
  lemma RoundTripCommon(videos: seq<Video>, path: string, newName: string, host: Host, once: seq<Video>)
    requires FindByPath(videos, path) >= 0
    requires var i := FindByPath(videos, path);
      && WellFormed(videos[i])
      && '/' !in newName
      && (forall j :: 0 <= j < |videos| && j != i ==>
            videos[j].path != RenamedPath(path, RenamedName(videos[i].name, newName)))
    requires |once| == |videos|
    requires var i := FindByPath(videos, path);
      && once[i] == videos[i].(name := RenamedName(videos[i].name, newName),
                               path := RenamedPath(path, RenamedName(videos[i].name, newName)))
      && (forall j :: 0 <= j < |videos| && j != i ==> once[j] == videos[j])
    ensures var i := FindByPath(videos, path);
      && FindByPath(once, once[i].path) == i
      && RenamedName(once[i].name, BaseName(videos[i].name)) == videos[i].name
      && RenamedPath(once[i].path, videos[i].name) == videos[i].path
  {
    var i := FindByPath(videos, path);
    var orig := videos[i];
    var name1 := RenamedName(orig.name, newName);
    RenameBackName(orig.name, newName);
    RenamedPathKeepsFolder(path, name1);
    FoundAt(once, once[i].path, i);
  }

  /** The renamed name keeps the old extension and no slash, so renaming it to the
      old base name gives the old name back. */
  lemma RenameBackName(oldName: string, newName: string)
    requires '.' in oldName && '/' !in oldName && '/' !in newName
    ensures var name1 := RenamedName(oldName, newName);
      && '/' !in name1
      && RenamedName(name1, BaseName(oldName)) == oldName
  {
    var e := Extension(oldName);
    var name1 := RenamedName(oldName, newName);
    RenamedNameKeepsExtension(oldName, newName);
    assert name1 == newName + e;
    assert name1[|newName|] == e[0] == '.';
    assert '/' !in e by {
      forall k | 0 <= k < |e| ensures e[k] != '/' {
        assert e[k] == oldName[|oldName| - |e| + k];
      }
    }
  }

  /** The exclusion list and the video list after `handleExclude(path)`. */
  function PageExclude(s: PageState, path: string): (r: PageState)
    ensures var folder := FolderPath(path);
      && folder in r.excludedFolders
      && (folder in s.excludedFolders ==> r.excludedFolders == s.excludedFolders)
      && (folder !in s.excludedFolders ==> r.excludedFolders == s.excludedFolders + [folder])
      && (NoDuplicates(s.excludedFolders) ==> NoDuplicates(r.excludedFolders))
      && (forall k :: 0 <= k < |r.videos| ==> !StartsWith(r.videos[k].path, folder))
      && (forall k :: 0 <= k < |s.videos| && !StartsWith(s.videos[k].path, folder) ==> s.videos[k] in r.videos)
      && IsSubsequence(r.videos, s.videos)
      && (forall v :: multiset(r.videos)[v] == if StartsWith(v.path, folder) then 0 else multiset(s.videos)[v])
  {
    var folder := FolderPath(path);
    var excluded := if folder in s.excludedFolders then s.excludedFolders else s.excludedFolders + [folder];
    PageState(OutsideFolder(s.videos, folder), excluded)
  }

  /** `currentVideos.filter(v => !v.path.startsWith(folderPath))`. */
  function OutsideFolder(videos: seq<Video>, folder: string): (r: seq<Video>)
    ensures forall k :: 0 <= k < |r| ==> !StartsWith(r[k].path, folder)
    ensures forall k :: 0 <= k < |videos| && !StartsWith(videos[k].path, folder) ==> videos[k] in r
    ensures IsSubsequence(r, videos)
    ensures forall v :: multiset(r)[v] == if StartsWith(v.path, folder) then 0 else multiset(videos)[v]
  {
    var keep := (v: Video) => !StartsWith(v.path, folder);
    FilterIsSubsequence(videos, keep);
    FilterCounts(videos, keep);
    Filter(videos, keep)
  }

  /** Excluding through two files of the same folder records the folder once. */
  lemma ExcludeTwiceAddsOnce(s: PageState, path1: string, path2: string)
    requires FolderPath(path1) == FolderPath(path2)
    ensures PageExclude(PageExclude(s, path1), path2).excludedFolders
         == PageExclude(s, path1).excludedFolders
    ensures |PageExclude(PageExclude(s, path1), path2).excludedFolders| <= |s.excludedFolders| + 1
  {
  }

  /** The prefix test is raw: excluding "/a/b" also hides a video of "/a/bb". */
  lemma ExcludeHidesPrefixSibling()
    ensures PageExclude(PageState([Video("1", "/a/bb/y.mp4", "y.mp4")], []), "/a/b/x.mp4").videos == []
  {
    var s := PageState([Video("1", "/a/bb/y.mp4", "y.mp4")], []);
    FolderOfChild("/a/b", "x.mp4");
    assert "/a/b" + "/" + "x.mp4" == "/a/b/x.mp4";
    assert StartsWith("/a/bb/y.mp4", "/a/b");
  }

  /** A path with no slash has folder "", which every path starts with: the whole list goes. */
  lemma ExcludeSlashlessPathClearsList(s: PageState, path: string)
    requires '/' !in path
    ensures PageExclude(s, path).videos == []
    ensures "" in PageExclude(s, path).excludedFolders
  {
    var r := PageExclude(s, path);
    if |r.videos| > 0 {
      assert StartsWith(r.videos[0].path, "");
      assert false;
    }
  }

  /** A later scan with the updated exclusions reports nothing the edit removed:
      no reported path starts with the excluded folder. */
  lemma ExcludedFolderStaysHidden(s: PageState, path: string, es: seq<DirectoryWalk.Entry>, root: string, recursive: bool)
    ensures var r := PageExclude(s, path);
      forall v :: v in DirectoryWalk.Scan(es, root, DirectoryWalk.Options(r.excludedFolders, recursive)) ==>
        !StartsWith(v.path, FolderPath(path))
  {
    var r := PageExclude(s, path);
    var opts := DirectoryWalk.Options(r.excludedFolders, recursive);
    DirectoryWalk.ScanIsSound(es, root, opts);
    var k :| 0 <= k < |r.excludedFolders| && r.excludedFolders[k] == FolderPath(path);
    forall v | v in DirectoryWalk.Scan(es, root, opts)
      ensures !StartsWith(v.path, FolderPath(path))
    {
      assert !DirectoryWalk.IsExcluded(v.path, r.excludedFolders);
    }
  }

  // ---------------------------------------------------------------------------
  // Duplicate ids

  /** Two same-named files with the same modification time in sibling folders
      get the same id from the walk. */
  lemma ScanCanRepeatIds()
    ensures var tree := [
      DirectoryWalk.Directory("x", [DirectoryWalk.File("a.mp4", 5)]),
      DirectoryWalk.Directory("y", [DirectoryWalk.File("a.mp4", 5)])];
      var found := DirectoryWalk.Scan(tree, "r", DirectoryWalk.Options([], true));
      && found == [Video("a.mp4-5", "r/x/a.mp4", "a.mp4"), Video("a.mp4-5", "r/y/a.mp4", "a.mp4")]
      && found[0].id == found[1].id && found[0].path != found[1].path
  {
    var opts := DirectoryWalk.Options([], true);
    var file := DirectoryWalk.File("a.mp4", 5);
    var tree := [DirectoryWalk.Directory("x", [file]), DirectoryWalk.Directory("y", [file])];
    TwinFile("x");
    TwinFile("y");
    assert DirectoryWalk.ChildPath("r", "x") == "r/" + "x";
    assert DirectoryWalk.ChildPath("r", "y") == "r/" + "y";
    assert tree[1..][1..] == [];
    assert "r/" + "x" + "/a.mp4" == "r/x/a.mp4";
    assert "r/" + "y" + "/a.mp4" == "r/y/a.mp4";
    assert !DirectoryWalk.IsExcluded("r/" + "y", []);
    assert !DirectoryWalk.IsExcluded("r/" + "x", []);
    assert tree[1..][0] == DirectoryWalk.Directory("y", [file]);
    assert DirectoryWalk.Scan(tree[1..], "r", opts) == [Video("a.mp4-5", "r/y/a.mp4", "a.mp4")];
    assert "r/x/a.mp4"[2] != "r/y/a.mp4"[2];
  }

  /** The walk records the file "a.mp4" of time 5 in folder "r/<dir>" with id "a.mp4-5". */
  lemma TwinFile(dir: string)
    ensures DirectoryWalk.Scan([DirectoryWalk.File("a.mp4", 5)], "r/" + dir, DirectoryWalk.Options([], true))
         == [Video("a.mp4-5", "r/" + dir + "/a.mp4", "a.mp4")]
  {
    var file := DirectoryWalk.File("a.mp4", 5);
    assert IsVideoName("a.mp4") by {
      assert EndsWith(ToLower("a.mp4"), VideoExtensions[0]);
    }
    assert MakeId("a.mp4", 5) == "a.mp4-5" by {
      assert NatToString(5) == "5";
    }
    assert [file][1..] == [];
    assert DirectoryWalk.ChildPath("r/" + dir, "a.mp4") == "r/" + dir + "/a.mp4";
  }

  /** With two records of one id in the list, the page's rename of the first moves
      both to the renamed file's path although only one file was renamed on disk. */
  lemma PageRenameMovesIdTwins(id: string, dir: string, stem: string, ext: string, twin: Video, newName: string)
    requires '/' !in stem + ext
    requires |ext| >= 1 && ext[0] == '.' && '.' !in ext[1..]
    requires twin.id == id
    ensures var videos := [Video(id, dir + "/" + (stem + ext), stem + ext), twin];
      var r := PageRename(videos, dir + "/" + (stem + ext), newName, Host(true, true));
      r[0].path == r[1].path == dir + "/" + (newName + ext)
  {
    var path := dir + "/" + (stem + ext);
    var videos := [Video(id, path, stem + ext), twin];
    FoundAt(videos, path, 0);
    RenameInFolder(dir, stem, ext, newName);
  }

  /** The page's rename of `dir/stem.ext` to base name `newName` lands on `dir/newName.ext`. */
  lemma RenameInFolder(dir: string, stem: string, ext: string, newName: string)
    requires '/' !in stem + ext
    requires |ext| >= 1 && ext[0] == '.' && '.' !in ext[1..]
    ensures RenamedPath(dir + "/" + (stem + ext), RenamedName(stem + ext, newName)) == dir + "/" + (newName + ext)
  {
    FolderOfChild(dir, stem + ext);
    assert dir + "/" + (stem + ext) == dir + "/" + stem + ext;
    ExtensionOfAppend(stem, ext);
  }

  /** The record-only rename leaves the twin where it was, even a twin listed at
      the same path. */
  lemma PageRenameRecordKeepsIdTwin(id: string, path: string, name: string, twin: Video, newName: string)
    requires twin.id == id
    ensures var videos := [Video(id, path, name), twin];
      PageRenameRecord(videos, path, newName, Host(true, true))[1] == twin
  {
    FoundAt([Video(id, path, name), twin], path, 0);
  }
}

=== FILE: video_grid.dfy ===
/** The batched reveal of src/components/video/video-grid.tsx: the grid shows a
    prefix of the video list and, each time its last card scrolls into view while
    more remain, appends the next batch of up to 24. The IntersectionObserver
    becomes the `intersecting` argument of a step. */
module VideoGrid {
  import opened JsString
  import opened Videos

  /** Number of videos revealed at a time. */
  const BatchSize: nat := 24

  /** The two pieces of grid state: the videos shown, and whether to keep loading. */
  datatype Grid = Grid(visible: seq<Video>, loadMore: bool)

  function Min(a: int, b: int): int {
    if a <= b then a else b
  }

  /** The effect run whenever the list of videos changes. */
  function Reset(videos: seq<Video>): (g: Grid)
    ensures g.visible <= videos
    ensures |g.visible| == Min(BatchSize, |videos|)
    ensures g.loadMore <==> |videos| > BatchSize
  {
    Grid(Slice(videos, 0, BatchSize), |videos| > BatchSize)
  }

  /** The observer callback: when the last card intersects and `loadMore` is set,
      append `videos.slice(len, len + 24)` if it is not empty, and clear
      `loadMore` once `len + 24` reaches the length of the list. */
  function LoadStep(g: Grid, videos: seq<Video>, intersecting: bool): (r: Grid)
    ensures !(intersecting && g.loadMore) ==> r == g
    ensures g.visible <= r.visible
    ensures |r.visible| <= |g.visible| + BatchSize
    ensures g.visible <= videos ==> r.visible <= videos
    ensures r.loadMore ==> g.loadMore
    ensures intersecting && g.loadMore && g.visible <= videos ==>
      r.visible == videos[..Min(|g.visible| + BatchSize, |videos|)]
  {
    if intersecting && g.loadMore then
      var current := |g.visible|;
      var next := Slice(videos, current, current + BatchSize);
      var visible := if |next| > 0 then g.visible + next else g.visible;
      var loadMore := if current + BatchSize >= |videos| then false else g.loadMore;
      Grid(visible, loadMore)
    else
      g
  }

  /** What the grid maintains: it shows a prefix of the list, and it keeps loading
      exactly while part of the list is still hidden. */
  ghost predicate Valid(g: Grid, videos: seq<Video>) {
    g.visible <= videos && (g.loadMore <==> |g.visible| < |videos|)
  }

  lemma ResetIsValid(videos: seq<Video>)
    ensures Valid(Reset(videos), videos)
  {
  }

  lemma LoadStepKeepsValid(g: Grid, videos: seq<Video>, intersecting: bool)
    requires Valid(g, videos)
    ensures Valid(LoadStep(g, videos, intersecting), videos)
  {
  }

  /** The grid after a list change followed by `k` scrolls to the last card. */
  function Scrolled(videos: seq<Video>, k: nat): Grid {
    if k == 0 then Reset(videos) else LoadStep(Scrolled(videos, k - 1), videos, true)
  }

  /** After `k` scrolls, the first `24 * (k + 1)` videos (or all of them) are shown,
      and loading continues exactly while some are still hidden. */
  lemma {:induction false} ScrolledShowsBatches(videos: seq<Video>, k: nat)
    ensures Scrolled(videos, k).visible == videos[..Min(BatchSize * (k + 1), |videos|)]
    ensures Scrolled(videos, k).loadMore <==> BatchSize * (k + 1) < |videos|
  {
    if k > 0 {
      ScrolledShowsBatches(videos, k - 1);
    }
  }

  /** Enough scrolls reveal the whole list and stop the loading. */
  lemma ScrollingRevealsAll(videos: seq<Video>, k: nat)
    requires |videos| <= BatchSize * (k + 1)
    ensures Scrolled(videos, k) == Grid(videos, false)
  {
    ScrolledShowsBatches(videos, k);
  }
}

=== FILE: video_store.dfy ===
/** The in-memory store of src/lib/video-manager.ts: a list of video records
    and a list of excluded folders, with a scan that hides the videos whose own
    folder is excluded, a rename that resolves name clashes by appending `_1`,
    `_2`, ... and an exclude that records a file's folder once. */
module VideoStore {
  import opened JsString
  import opened Lists
  import opened Videos

  datatype Store = Store(videos: seq<Video>, excludedFolders: seq<string>)

  /** A successful rename: the store afterwards and the updated record it returns. */
  datatype Renamed = Renamed(store: Store, video: Video)

  /** An exclude: the store afterwards and the copy of the excluded list it returns. */
  datatype Excluded = Excluded(store: Store, folders: seq<string>)

  // ---------------------------------------------------------------------------
  // Scan

  /** `mockScanVideos`: the stored videos whose folder is not literally in the excluded list. */
  function ScanVideos(s: Store): (r: seq<Video>)
    ensures forall k :: 0 <= k < |r| ==> r[k] in s.videos && FolderPath(r[k].path) !in s.excludedFolders
    ensures forall k :: 0 <= k < |s.videos| && FolderPath(s.videos[k].path) !in s.excludedFolders ==>
      s.videos[k] in r
    ensures IsSubsequence(r, s.videos)
    ensures forall v :: multiset(r)[v] == if FolderPath(v.path) in s.excludedFolders then 0 else multiset(s.videos)[v]
  {
    var keep := (v: Video) => FolderPath(v.path) !in s.excludedFolders;
    FilterIsSubsequence(s.videos, keep);
    FilterCounts(s.videos, keep);
    Filter(s.videos, keep)
  }

  /** The test is equality of folders, so a video in a subfolder of an excluded
      folder is still returned. */
  lemma ScanKeepsSubfolderVideos(dir: string, sub: string, name: string, id: string)
    requires '/' !in name
    ensures var v := Video(id, dir + "/" + sub + "/" + name, name);
      ScanVideos(Store([v], [dir])) == [v]
  {
    var v := Video(id, dir + "/" + sub + "/" + name, name);
    FolderOfChild(dir + "/" + sub, name);
    assert FolderPath(v.path) != dir by {
      assert |FolderPath(v.path)| > |dir|;
    }
    assert [v][1..] == [];
  }

  // ---------------------------------------------------------------------------
  // Rename

  /** The k-th name the rename tries: `newName + ext` first, then `newName_k + ext`. */
  function CandidateName(newName: string, ext: string, k: nat): string {
    if k == 0 then newName + ext else newName + "_" + NatToString(k) + ext
  }

  /** `${folderPath}/${finalName}`: the path the k-th attempt checks. */
  function CandidatePath(folder: string, newName: string, ext: string, k: nat): string {
    folder + "/" + CandidateName(newName, ext, k)
  }

  /** Some record with a different id already has path `p` (the loop condition). */
  predicate Taken(videos: seq<Video>, id: string, p: string) {
    exists j :: 0 <= j < |videos| && videos[j].path == p && videos[j].id != id
  }

  /** Different attempts produce different paths. */
  lemma CandidatePathInjective(folder: string, newName: string, ext: string, j: nat, k: nat)
    requires CandidatePath(folder, newName, ext, j) == CandidatePath(folder, newName, ext, k)
    ensures j == k
  {
    var p := CandidatePath(folder, newName, ext, j);
    assert CandidateName(newName, ext, j) == p[|folder| + 1..];
    assert CandidateName(newName, ext, k) == p[|folder| + 1..];
    CandidateNameInjective(newName, ext, j, k);
  }

  lemma CandidateNameInjective(newName: string, ext: string, j: nat, k: nat)
    requires CandidateName(newName, ext, j) == CandidateName(newName, ext, k)
    ensures j == k
  {
    CandidateNameLength(newName, ext, j);
    CandidateNameLength(newName, ext, k);
    if j > 0 && k > 0 {
      CancelAround(newName + "_", NatToString(j), NatToString(k), ext);
      NatToStringInjective(j, k);
    }
  }

  /** Every numbered attempt is longer than the first. */
  lemma CandidateNameLength(newName: string, ext: string, k: nat)
    ensures k == 0 ==> |CandidateName(newName, ext, k)| == |newName| + |ext|
    ensures k > 0 ==> |CandidateName(newName, ext, k)| > |newName| + |ext|
  {
  }

  /** `p` is one of the first `k` attempts. */
  ghost predicate Tried(p: string, folder: string, newName: string, ext: string, k: nat)
    decreases k
  {
    k > 0 && (p == CandidatePath(folder, newName, ext, k - 1) || Tried(p, folder, newName, ext, k - 1))
  }

  lemma {:induction false} NotTriedYet(folder: string, newName: string, ext: string, k: nat, m: nat)
    requires m <= k
    ensures !Tried(CandidatePath(folder, newName, ext, k), folder, newName, ext, m)
    decreases m
  {
    if m > 0 {
      if CandidatePath(folder, newName, ext, k) == CandidatePath(folder, newName, ext, m - 1) {
        CandidatePathInjective(folder, newName, ext, k, m - 1);
      }
      NotTriedYet(folder, newName, ext, k, m - 1);
    }
  }

  /** How many other-id records hold a path not yet tried: the loop's variant. */
  ghost function Untried(videos: seq<Video>, id: string, folder: string, newName: string, ext: string, k: nat): nat
  {
    if videos == [] then 0
    else
      (if videos[0].id != id && !Tried(videos[0].path, folder, newName, ext, k) then 1 else 0)
      + Untried(videos[1..], id, folder, newName, ext, k)
  }

  /** Each blocked attempt uses up one record, so the loop cannot run forever. */
  lemma {:induction false} UntriedDrops(videos: seq<Video>, id: string, folder: string, newName: string, ext: string, k: nat)
    ensures Untried(videos, id, folder, newName, ext, k + 1) <= Untried(videos, id, folder, newName, ext, k)
    ensures Taken(videos, id, CandidatePath(folder, newName, ext, k)) ==>
      Untried(videos, id, folder, newName, ext, k + 1) < Untried(videos, id, folder, newName, ext, k)
  {
    if videos != [] {
      UntriedDrops(videos[1..], id, folder, newName, ext, k);
      var p := CandidatePath(folder, newName, ext, k);
      if videos[0].path == p && videos[0].id != id {
        NotTriedYet(folder, newName, ext, k, k);
      } else if Taken(videos, id, p) {
        var j :| 0 <= j < |videos| && videos[j].path == p && videos[j].id != id;
        assert videos[1..][j - 1] == videos[j];
      }
    }
  }

  /** The `while` loop of `mockRenameVideo` from attempt `k` on: the first attempt
      whose path no record of another id holds. */
  function FirstFree(videos: seq<Video>, id: string, folder: string, newName: string, ext: string, k: nat): (r: nat)
    ensures k <= r
    ensures !Taken(videos, id, CandidatePath(folder, newName, ext, r))
    ensures forall j :: k <= j < r ==> Taken(videos, id, CandidatePath(folder, newName, ext, j))
    decreases Untried(videos, id, folder, newName, ext, k)
  {
    if !Taken(videos, id, CandidatePath(folder, newName, ext, k)) then k
    else
      UntriedDrops(videos, id, folder, newName, ext, k);
      FirstFree(videos, id, folder, newName, ext, k + 1)
  }

  /** `mockRenameVideo(filePath, newName)`. */
  function RenameVideo(s: Store, filePath: string, newName: string): (r: Result<Renamed>)
    ensures r.Err? <==> FindByPath(s.videos, filePath) < 0
    ensures r.Err? ==> r.message == "Video not found"
    ensures r.Ok? ==>
      var i := FindByPath(s.videos, filePath);
      var orig := s.videos[i];
      var folder := FolderPath(orig.path);
      var ext := Extension(orig.name);
      var v := r.value.video;
      && r.value.store == Store(s.videos[i := v], s.excludedFolders)
      && v.id == orig.id
      && v.path == folder + "/" + v.name
      && !Taken(s.videos, orig.id, v.path)
      && exists k: nat ::
           && v.name == CandidateName(newName, ext, k)
           && forall j :: 0 <= j < k ==> Taken(s.videos, orig.id, CandidatePath(folder, newName, ext, j))
  {
    var i := FindByPath(s.videos, filePath);
    if i < 0 then Err("Video not found")
    else
      var orig := s.videos[i];
      var folder := FolderPath(orig.path);
      var ext := Extension(orig.name);
      var k := FirstFree(s.videos, orig.id, folder, newName, ext, 0);
      var v := orig.(name := CandidateName(newName, ext, k), path := CandidatePath(folder, newName, ext, k));
      Ok(Renamed(Store(s.videos[i := v], s.excludedFolders), v))
  }

  /** After a rename no record of another id has the new path, and the list keeps its length. */
  lemma RenameLeavesPathUnshared(s: Store, filePath: string, newName: string)
    requires RenameVideo(s, filePath, newName).Ok?
    ensures var r := RenameVideo(s, filePath, newName).value;
      && |r.store.videos| == |s.videos|
      && forall j :: 0 <= j < |r.store.videos| && r.store.videos[j].id != r.video.id ==>
           r.store.videos[j].path != r.video.path
  {
    var r := RenameVideo(s, filePath, newName).value;
    var i := FindByPath(s.videos, filePath);
    forall j | 0 <= j < |r.store.videos| && r.store.videos[j].id != r.video.id
      ensures r.store.videos[j].path != r.video.path
    {
      assert j != i;
      assert r.store.videos[j] == s.videos[j];
    }
  }

  /** The renamed file stays in its folder and keeps its extension. */
  lemma RenameKeepsFolderAndExtension(s: Store, filePath: string, newName: string)
    requires RenameVideo(s, filePath, newName).Ok?
    ensures var orig := s.videos[FindByPath(s.videos, filePath)];
      var v := RenameVideo(s, filePath, newName).value.video;
      && ('/' !in newName && '/' !in orig.name ==> FolderPath(v.path) == FolderPath(orig.path))
      && ('.' in orig.name ==> Extension(v.name) == Extension(orig.name))
  {
    var orig := s.videos[FindByPath(s.videos, filePath)];
    var v := RenameVideo(s, filePath, newName).value.video;
    var ext := Extension(orig.name);
    var k :| v.name == CandidateName(newName, ext, k);
    CandidateNameParts(newName, orig.name, k);
    if '/' !in newName && '/' !in orig.name {
      FolderOfChild(FolderPath(orig.path), v.name);
    }
  }

  /** Every attempted name is a stem followed by the old extension; it has no
      slash when neither input has one, and keeps the extension when it has a dot. */
  lemma CandidateNameParts(newName: string, oldName: string, k: nat)
    ensures var name := CandidateName(newName, Extension(oldName), k);
      && ('/' !in newName && '/' !in oldName ==> '/' !in name)
      && ('.' in oldName ==> Extension(name) == Extension(oldName))
  {
    var ext := Extension(oldName);
    var stem := if k == 0 then newName else newName + "_" + NatToString(k);
    assert CandidateName(newName, ext, k) == stem + ext;
    if '/' !in newName && '/' !in oldName {
      assert '/' !in ext by {
        forall c | 0 <= c < |ext| ensures ext[c] != '/' {
          assert ext[c] == oldName[|oldName| - |ext| + c];
        }
      }
      assert '/' !in stem by {
        if k > 0 {
          forall c | 0 <= c < |stem| ensures stem[c] != '/' {
            if c > |newName| {
              assert stem[c] == NatToString(k)[c - |newName| - 1];
            }
          }
        }
      }
    }
    if '.' in oldName {
      ExtensionOfAppend(stem, ext);
    }
  }

  /** Renaming the record of `folder/name` to its own base name returns it unchanged
      and leaves the store as it was, when no record of another id shares its path:
      the record is not its own clash. */
  lemma RenameToOwnBaseName(s: Store, i: nat, folder: string)
    requires i < |s.videos|
    requires '/' !in s.videos[i].name && s.videos[i].path == folder + "/" + s.videos[i].name
    requires forall j :: 0 <= j < i ==> s.videos[j].path != s.videos[i].path
    requires forall j :: 0 <= j < |s.videos| && s.videos[j].path == s.videos[i].path ==> s.videos[j].id == s.videos[i].id
    ensures RenameVideo(s, s.videos[i].path, BaseName(s.videos[i].name)) == Ok(Renamed(s, s.videos[i]))
  {
    OwnBaseNameKeepsRecord(s, i, folder);
    UpdateWithSame(s.videos, i);
  }

  /** The record a rename to the own base name returns is the original one. */
  lemma OwnBaseNameKeepsRecord(s: Store, i: nat, folder: string)
    requires i < |s.videos|
    requires '/' !in s.videos[i].name && s.videos[i].path == folder + "/" + s.videos[i].name
    requires forall j :: 0 <= j < i ==> s.videos[j].path != s.videos[i].path
    requires forall j :: 0 <= j < |s.videos| && s.videos[j].path == s.videos[i].path ==> s.videos[j].id == s.videos[i].id
    ensures var r := RenameVideo(s, s.videos[i].path, BaseName(s.videos[i].name));
      r.Ok? && FindByPath(s.videos, s.videos[i].path) == i && r.value.video == s.videos[i]
  {
    var orig := s.videos[i];
    FoundAt(s.videos, orig.path, i);
    FolderOfChild(folder, orig.name);
    OwnNameIsFree(s.videos, orig.id, folder, BaseName(orig.name), Extension(orig.name), orig.name);
  }

  lemma UpdateWithSame<T>(xs: seq<T>, i: nat)
    requires i < |xs|
    ensures xs[i := xs[i]] == xs
  {
  }

  /** The first candidate is free when it is a name nothing of another id occupies. */
  lemma OwnNameIsFree(videos: seq<Video>, id: string, folder: string, base: string, ext: string, name: string)
    requires base + ext == name
    requires !Taken(videos, id, folder + "/" + name)
    ensures FirstFree(videos, id, folder, base, ext, 0) == 0
    ensures CandidateName(base, ext, 0) == name
  {
  }

  /** A folder holding "clip.mp4", "final.mp4" and "final_1.mp4". */
  const ClashVideos: seq<Video> := [
    Video("1", "/r/clip.mp4", "clip.mp4"),
    Video("2", "/r/final.mp4", "final.mp4"),
    Video("3", "/r/final_1.mp4", "final_1.mp4")]

  /** "clip.mp4" renamed to "final" beside "final.mp4" and "final_1.mp4" becomes "final_2.mp4". */
  lemma RenameSkipsTwoClashes()
    ensures var r := RenameVideo(Store(ClashVideos, []), "/r/clip.mp4", "final");
      r.Ok? && r.value.video == Video("1", "/r/final_2.mp4", "final_2.mp4")
  {
    FoundAt(ClashVideos, "/r/clip.mp4", 0);
    ClipFacts();
    FinalCandidates();
    ClashesOfFinal();
    var k := FirstFree(ClashVideos, "1", "/r", "final", ".mp4", 0);
    assert k == 2;
  }

  /** The first three names tried for base name "final" in folder "/r" (literal
      evaluation split out of `RenameSkipsTwoClashes`, as are the next two lemmas). */
  lemma FinalCandidates()
    ensures CandidatePath("/r", "final", ".mp4", 0) == "/r/final.mp4"
    ensures CandidatePath("/r", "final", ".mp4", 1) == "/r/final_1.mp4"
    ensures CandidatePath("/r", "final", ".mp4", 2) == "/r/final_2.mp4"
    ensures CandidateName("final", ".mp4", 2) == "final_2.mp4"
  {
    assert NatToString(1) == "1" && NatToString(2) == "2";
  }

  /** The first two are held by other records, the third by none. */
  lemma ClashesOfFinal()
    ensures Taken(ClashVideos, "1", "/r/final.mp4")
    ensures Taken(ClashVideos, "1", "/r/final_1.mp4")
    ensures !Taken(ClashVideos, "1", "/r/final_2.mp4")
  {
    assert ClashVideos[1].path == "/r/final.mp4";
    assert ClashVideos[2].path == "/r/final_1.mp4";
    assert "/r/final_2.mp4"[9] != "/r/final_1.mp4"[9];
    assert |"/r/final_2.mp4"| != |"/r/final.mp4"|;
  }

  /** The folder and extension of "/r/clip.mp4". */
  lemma ClipFacts()
    ensures FolderPath("/r/clip.mp4") == "/r"
    ensures Extension("clip.mp4") == ".mp4"
  {
    FolderOfChild("/r", "clip.mp4");
    assert "/r" + "/" + "clip.mp4" == "/r/clip.mp4";
    ExtensionOfAppend("clip", ".mp4");
    assert "clip" + ".mp4" == "clip.mp4";
  }

  // ---------------------------------------------------------------------------
  // Exclude

  /** `mockExcludeFolder(filePath)`: record the file's folder unless already
      recorded, and return a copy of the list. */
  function ExcludeFolder(s: Store, filePath: string): (r: Excluded)
    ensures r.folders == r.store.excludedFolders
    ensures r.store.videos == s.videos
    ensures FolderPath(filePath) in r.folders
    ensures FolderPath(filePath) in s.excludedFolders ==> r.folders == s.excludedFolders
    ensures FolderPath(filePath) !in s.excludedFolders ==> r.folders == s.excludedFolders + [FolderPath(filePath)]
    ensures NoDuplicates(s.excludedFolders) ==> NoDuplicates(r.folders)
  {
    var folder := FolderPath(filePath);
    var folders := if folder in s.excludedFolders then s.excludedFolders else s.excludedFolders + [folder];
    Excluded(Store(s.videos, folders), folders)
  }

  /** Excluding through two files of "/root/Vacation" records that folder once. */
  lemma ExcludeSameFolderTwice(videos: seq<Video>)
    ensures var once := ExcludeFolder(Store(videos, []), "/root/Vacation/clip.mp4");
      ExcludeFolder(once.store, "/root/Vacation/other.mp4").folders == ["/root/Vacation"]
  {
    VacationFolders();
    ExcludeTwiceAddsOnce(Store(videos, []), "/root/Vacation/clip.mp4", "/root/Vacation/other.mp4");
  }

  /** Excluding through two files of the same folder records it at most once more:
      the second call changes nothing. */
  lemma ExcludeTwiceAddsOnce(s: Store, path1: string, path2: string)
    requires FolderPath(path1) == FolderPath(path2)
    ensures ExcludeFolder(ExcludeFolder(s, path1).store, path2).folders == ExcludeFolder(s, path1).folders
  {
  }

  /** The folder of both example files. Like `FinalCandidates`, `ClashesOfFinal` and
      `ClipFacts`, this evaluates the string literals of an example on its own, so
      that the example's lemma only combines the results. */
  lemma VacationFolders()
    ensures FolderPath("/root/Vacation/clip.mp4") == "/root/Vacation"
    ensures FolderPath("/root/Vacation/other.mp4") == "/root/Vacation"
  {
    VacationFile("clip.mp4");
    VacationFile("other.mp4");
  }

  /** One example file's folder. The second ensures only spells out the joined
      literal, so that the caller can match it against the literal path without
      the solver evaluating the concatenation itself. */
  lemma VacationFile(name: string)
    requires name == "clip.mp4" || name == "other.mp4"
    ensures FolderPath("/root/Vacation/" + name) == "/root/Vacation"
    ensures "/root/Vacation/" + name == (if name == "clip.mp4" then "/root/Vacation/clip.mp4" else "/root/Vacation/other.mp4")
  {
    VacationFolder(name);
  }

  /** The folder of any file directly in "/root/Vacation". */
  lemma VacationFolder(name: string)
    requires '/' !in name
    ensures FolderPath("/root/Vacation/" + name) == "/root/Vacation"
  {
    FolderOfChild("/root/Vacation", name);
    assert "/root/Vacation" + "/" + name == "/root/Vacation/" + name;
  }

  /** After an exclude, the next scan returns no video whose folder is the excluded one. */
  lemma ExcludeHidesFolderFromScan(s: Store, filePath: string)
    ensures var r := ExcludeFolder(s, filePath);
      forall k :: 0 <= k < |ScanVideos(r.store)| ==> FolderPath(ScanVideos(r.store)[k].path) != FolderPath(filePath)
  {
  }
}

=== FILE: videos.dfy ===
/** The video record both the page and the in-memory store keep, and the string
    derivations on paths and file names that both of them perform. */
module Videos {
  import opened JsString

  /** A discovered video. The file handle the page also keeps is host state and not modelled. */
  datatype Video = Video(id: string, path: string, name: string)

  /** An operation that either answers a value or fails with a message, like a thrown `Error`. */
  datatype Result<T> = Ok(value: T) | Err(message: string)

  /** The recognised extensions, compared against the lower-cased file name. */
  const VideoExtensions: seq<string> := [".mp4", ".mov", ".mkv", ".avi", ".webm"]

  /** `videoExtensions.some(ext => name.toLowerCase().endsWith(ext))` */
  predicate IsVideoName(name: string) {
    exists i :: 0 <= i < |VideoExtensions| && EndsWith(ToLower(name), VideoExtensions[i])
  }

  /** A scanned file's id: its name, a dash and its modification time in decimal.
      The time has no dash, so the id's last dash sits right after the name
      (`MakeIdInjective`). */
  function MakeId(name: string, lastModified: nat): string {
    name + "-" + NatToString(lastModified)
  }

  /** Past the dash after the name, an id holds only digits, so no other dash. */
  lemma NoDashInTime(name: string, digits: string)
    requires forall i :: 0 <= i < |digits| ==> '0' <= digits[i] <= '9'
    ensures forall k :: |name| < k < |name| + 1 + |digits| ==> (name + "-" + digits)[k] != '-'
  {
    forall k | |name| < k < |name| + 1 + |digits|
      ensures (name + "-" + digits)[k] != '-'
    {
      assert (name + "-" + digits)[k] == digits[k - |name| - 1];
    }
  }

  /** Two ids are equal only when both the names and the times are: the id can be
      split at its last dash back into the two. */
  lemma MakeIdInjective(n1: string, m1: nat, n2: string, m2: nat)
    requires MakeId(n1, m1) == MakeId(n2, m2)
    ensures n1 == n2 && m1 == m2
  {
    var d1, d2 := NatToString(m1), NatToString(m2);
    var id := n1 + "-" + d1;
    assert id == n2 + "-" + d2;
    assert id[|n1|] == '-' && id[|n2|] == '-';
    NoDashInTime(n1, d1);
    NoDashInTime(n2, d2);
    assert n1 == id[..|n1|] == n2;
    assert d1 == id[|n1| + 1..] == d2;
    NatToStringInjective(m1, m2);
  }

  /** `p.substring(0, p.lastIndexOf('/'))`: the text before the last slash, or "" without one. */
  function FolderPath(p: string): (r: string)
    ensures '/' !in p ==> r == ""
    ensures '/' in p ==> StartsWith(p, r + "/") && '/' !in p[|r| + 1..]
  {
    var k := LastIndexOf(p, '/');
    if k < 0 then "" else
      assert p[..k + 1] == p[..k] + "/";
      p[..k]
  }

  /** `name.substring(name.lastIndexOf('.'))`: from the last dot to the end, or the whole
      name when it has no dot (the -1 index is clamped to 0). */
  function Extension(name: string): (r: string)
    ensures '.' !in name ==> r == name
    ensures '.' in name ==> EndsWith(name, r) && |r| >= 1 && r[0] == '.' && '.' !in r[1..]
  {
    SubstringFrom(name, LastIndexOf(name, '.'))
  }

  /** The part of a name before its extension ("" when the name has no dot). */
  function BaseName(name: string): (r: string)
    ensures r + Extension(name) == name
  {
    Substring(name, 0, LastIndexOf(name, '.'))
  }

  /** A file counts as a video exactly when the extension of its lower-cased name
      (its text from the last dot) is one of the five recognised ones. */
  lemma VideoNameByExtension(name: string)
    ensures IsVideoName(name) <==> Extension(ToLower(name)) in VideoExtensions
  {
    if IsVideoName(name) {
      VideoNameHasExtension(name);
    }
    if Extension(ToLower(name)) in VideoExtensions {
      ExtensionMakesVideoName(name);
    }
  }

  lemma VideoNameHasExtension(name: string)
    requires IsVideoName(name)
    ensures Extension(ToLower(name)) in VideoExtensions
  {
    var l := ToLower(name);
    var i :| 0 <= i < |VideoExtensions| && EndsWith(l, VideoExtensions[i]);
    var e := VideoExtensions[i];
    ExtensionsAreDotted();
    var stem := l[..|l| - |e|];
    assert l == stem + e;
    ExtensionOfAppend(stem, e);
  }

  lemma ExtensionMakesVideoName(name: string)
    requires Extension(ToLower(name)) in VideoExtensions
    ensures IsVideoName(name)
  {
    var l := ToLower(name);
    var i :| 0 <= i < |VideoExtensions| && VideoExtensions[i] == Extension(l);
    assert VideoExtensions[i][0] == '.';
    assert EndsWith(l, VideoExtensions[i]);
  }

  /** Each recognised extension is a dot followed by dot-free text. */
  lemma ExtensionsAreDotted()
    ensures forall i :: 0 <= i < |VideoExtensions| ==>
      |VideoExtensions[i]| >= 1 && VideoExtensions[i][0] == '.' && '.' !in VideoExtensions[i][1..]
  {
    assert VideoExtensions[0][1..] == "mp4";
    assert VideoExtensions[1][1..] == "mov";
    assert VideoExtensions[2][1..] == "mkv";
    assert VideoExtensions[3][1..] == "avi";
    assert VideoExtensions[4][1..] == "webm";
  }

  /** The extension of `stem + ext` is `ext` whenever `ext` is itself an extension with a dot. */
  lemma ExtensionOfAppend(stem: string, ext: string)
    requires |ext| >= 1 && ext[0] == '.' && '.' !in ext[1..]
    ensures Extension(stem + ext) == ext
  {
    assert LastIndexOf(ext, '.') == 0 by {
      assert ext == [ext[0]] + ext[1..];
    }
    LastIndexOfAppend(stem, ext, '.');
    assert (stem + ext)[|stem|..] == ext;
  }

  /** The folder of a child path is the directory it was joined onto. */
  lemma FolderOfChild(dir: string, name: string)
    requires '/' !in name
    ensures FolderPath(dir + "/" + name) == dir
  {
    var t := "/" + name;
    assert t[0] == '/' && t[1..] == name;
    assert LastIndexOf(t, '/') == 0;
    LastIndexOfAppend(dir, t, '/');
    assert dir + "/" + name == dir + t;
    assert (dir + t)[..|dir|] == dir;
  }

  /** `videos.find(v => v.path === path)` / `findIndex`: the first index holding `path`. */
  function FindByPath(videos: seq<Video>, path: string): (r: int)
    ensures -1 <= r < |videos|
    ensures r == -1 <==> forall i :: 0 <= i < |videos| ==> videos[i].path != path
    ensures r >= 0 ==> videos[r].path == path && forall i :: 0 <= i < r ==> videos[i].path != path
  {
    if |videos| == 0 then -1
    else if videos[0].path == path then 0
    else
      var r := FindByPath(videos[1..], path);
      if r < 0 then -1 else r + 1
  }

  /** `FindByPath` answers `i` when `i` is the first index holding the path. */
  lemma FoundAt(videos: seq<Video>, path: string, i: nat)
    requires i < |videos| && videos[i].path == path
    requires forall j :: 0 <= j < i ==> videos[j].path != path
    ensures FindByPath(videos, path) == i
  {
  }
}
